=== FILE: README.md ===
# ECPay CheckMacValue signer and survey request helpers

A Dafny model of the request-signing logic in `HomeController` of DocEngine,
a risk-assessment survey site that unlocks its report through the ECPay
payment gateway.

The centre of the model is `GenCheckMacValue`. It signs a payment request in six steps:

1. drop the `CheckMacValue` entry;
2. sort the remaining entries by key;
3. render each as `key=value` and join them with `&`;
4. wrap the result as `HashKey=<k>&...&HashIV=<iv>`;
5. URL-encode it and lower-case it;
6. hash it with SHA-256 and render the digest as upper-case hex.

`GetEcpayFormData` builds the fixed 13-field request and stores its signature under `CheckMacValue`.

Alongside the signer the model covers two pieces of pure logic from the AI endpoints:

- how the numbered answers `m1`..`m8` are read from a JSON body;
- the insights endpoint's early reply when the open-ended answers are empty.

Modules:

- `Fields`: the request dictionary as a sequence of entries with distinct keys. It models indexer assignment (`Put`), the `Where` filter (`Without`) and lookup.
- `Ordering`: `OrderBy(x => x.Key)` as a stable insertion sort under an abstract comparer. It also proves that a sorted arrangement of a tie-free set of entries is unique. Ordinal comparison is given as one concrete comparer.
- `Text`: `string.Join`, the `Split` a receiver would use to read the string back, `Replace`, and the `ToLower`/`ToUpper` case mappings.
- `Hex`: `BitConverter.ToString(...).Replace("-", "").ToUpper()` and its decoding.
- `CheckMac`: the signer and its properties.
- `Ecpay`: the signed payment form.
- `Survey`: the lookups and the no-data guard.

Some library pieces are not written out. They are fields of the `CheckMac.Platform` value the signer receives:

- the default string comparer (`keyLe`);
- `HttpUtility.UrlEncode`;
- the culture's lower-casing of characters beyond ASCII;
- `Encoding.UTF8.GetBytes`;
- SHA-256, whose result type fixes its length at 32 bytes.

Properties that need laws of these pieces state them as preconditions:

- the comparer is a total preorder;
- lower-casing beyond ASCII yields no ASCII capital and is settled after one application.

The clock-derived `MerchantTradeNo` suffix and `MerchantTradeDate` are parameters of the form.

The key order is that of `OrderBy(x => x.Key)`, which sorts with the culture-sensitive `Comparer<string>.Default`, not in ordinal order. The model keeps the comparer abstract and gives `Ordering.OrdinalLe` as one instance: it satisfies the laws and never ties two keys.

## Model

| member | source | states |
|---|---|---|
| `CheckMac.Sign` | Controllers/HomeController.cs:156-174 | The signature is 64 characters, all upper-case hex digits. Decoding it gives back exactly the SHA-256 digest of the UTF-8 bytes of the encoded, lower-cased string. |
| `CheckMac.SigningOrder` | Controllers/HomeController.cs:159-161 | The signed entries are the input entries not keyed `CheckMacValue`, each as often as the filtered input holds it, so the result is a rearrangement of the filtered input. Under a total-preorder comparer they are in ascending key order. |
| `CheckMac.Canonical` | Controllers/HomeController.cs:162-165 | The pre-encoding string starts with `HashKey=<k>&` and ends with `&HashIV=<iv>`. What lies between is fixed by `CheckMac.CanonicalReadsBack`. |
| `CheckMac.HashInput` | Controllers/HomeController.cs:168 | The hashed string is as long as the URL-encoded one. It keeps every ASCII character that is not a capital, turns every ASCII capital into the same letter in lower case, and holds no ASCII capital at all when lower-casing beyond ASCII is clean. |
| `CheckMac.CanonicalReadsBack` | Controllers/HomeController.cs:162-165 | Split at `&`, the pre-encoding string yields `HashKey=<k>`, then each signed entry rendered as `key=value` by the `Select` at :162, in signing order, then `HashIV=<iv>`. With no entries left, one empty piece stands between the two. This holds when no secret, key or value contains `&`. |
| `CheckMac.EmptyCanonical` | Controllers/HomeController.cs:165 | When every entry is keyed `CheckMacValue`, the pre-encoding string is `HashKey=<k>&&HashIV=<iv>`. |
| `CheckMac.HashInputIsLowerCase` | Controllers/HomeController.cs:168 | The string that is hashed contains no ASCII capital, and lower-casing it again leaves it unchanged. |
| `CheckMac.ReservedKeyIgnored` | Controllers/HomeController.cs:160 | Storing a `CheckMacValue` entry, new or replacing an old one, leaves the signature unchanged. So does removing every such entry. |
| `CheckMac.OrderIndependent` | Controllers/HomeController.cs:161-162 | Two arrangements of the same distinct-key entries give the same pre-encoding string and the same signature, when the comparer never ties two of the keys. |
| `CheckMac.TieMakesOrderMatter` | Controllers/HomeController.cs:161 | Under a comparer that ties all keys, reordering two entries changes the pre-encoding string. So the no-tie condition is needed. |
| `Ordering.SortByKey` | Controllers/HomeController.cs:161 | The sort returns a permutation of its input. Under a total preorder that permutation is in ascending key order. |
| `Ordering.Insert` | Controllers/HomeController.cs:161 | Inserting adds exactly the one entry and keeps a sorted sequence sorted. |
| `Ordering.SortPermutationInvariant` | Controllers/HomeController.cs:161 | Any two arrangements of the same entries sort to the same sequence, when their keys are distinct and the comparer ties none of them. |
| `Ordering.SortedUnique` | Controllers/HomeController.cs:161 | Two sorted sequences holding the same tie-free bag of entries are equal. |
| `Ordering.DistinctKeysRanked` | Controllers/HomeController.cs:156-161 | For the dictionary `GenCheckMacValue` receives: when its keys are distinct and never tie, each entry occurs once and no two entries tie. |
| `Ordering.OrdinalIsTotalPreorder` | Controllers/HomeController.cs:161 | Ordinal string order is total and transitive. |
| `Ordering.OrdinalNoTies` | Controllers/HomeController.cs:161 | Ordinal string order ties no two different keys of any field set, so the no-tie condition always holds under it. |
| `Fields.Without` | Controllers/HomeController.cs:160 | The filter keeps each entry not keyed `CheckMacValue` as often as the input holds it. It keeps no entry with that key. |
| `Fields.WithoutAppend` | Controllers/HomeController.cs:160 | The filter keeps survivors in input order: filtering a concatenation is the concatenation of the filtered parts, and a single entry survives exactly when its key is not the dropped one. |
| `Fields.Put` | Controllers/HomeController.cs:151 | Assigning through the indexer keeps the key sequence when the key exists and otherwise appends the key. |
| `Fields.PutLookup` | Controllers/HomeController.cs:151 | After the assignment the key reads as the new value, and every other key reads as before. |
| `Fields.PutKeepsDistinct` | Controllers/HomeController.cs:151 | Indexer assignment keeps the dictionary's keys distinct. |
| `Fields.Initialise` | Controllers/HomeController.cs:131-146 | The collection initialiser, one indexer assignment per line from the empty dictionary, yields distinct keys, and exactly the keys written. |
| `Fields.InitialiseIsFromPairs` | Controllers/HomeController.cs:131-146 | When the written keys are distinct, the initialiser lays the entries out in the order written, each key beside its value. |
| `Fields.InitialiseLookup` | Controllers/HomeController.cs:131-146 | A key reads as the value on the last line that assigns it. A repeated key is overwritten, not duplicated. |
| `Hex.UpperHex` | Controllers/HomeController.cs:173 | The dashed `BitConverter` rendering, with its dashes removed and upper-cased, is the per-byte two-digit concatenation. That is two upper-case hex digits per byte and no `-`. |
| `Hex.DecodeUpperHex` | Controllers/HomeController.cs:173 | Decoding the rendered digest returns exactly the digest bytes. |
| `Text.ToLower` | Controllers/HomeController.cs:168 | `ToLower` keeps the length, maps each ASCII capital to the same letter in lower case, keeps the other ASCII characters, and leaves no ASCII capital when lower-casing beyond ASCII is clean (`Text.LowerChar` per character). |
| `Ecpay.EcpayForm` | Controllers/HomeController.cs:127-154 | The form's keys are the 13 business keys in insertion order followed by `CheckMacValue`, all distinct. Each business key reads as its initialiser value: merchant `2000132`, amount `2990`, `aio`, `Credit`, encrypt type `1`, `N`, and the three URLs built from port 5163. The trade number is `DOC` plus the clock stamp and the trade date is the clock date. The stored `CheckMacValue` equals the signature of the returned form itself. |
| `Ecpay.BusinessFieldFacts` | Controllers/HomeController.cs:131-146 | The 13 business fields carry distinct keys, none of them `CheckMacValue`. The clock-derived values sit under `MerchantTradeNo` and `MerchantTradeDate`. |
| `Ecpay.FormVerifiesInAnyOrder` | Controllers/HomeController.cs:151-161 | Any reordering of the returned form re-signs to the stored `CheckMacValue` under a comparer that never ties two of its keys. |
| `Survey.Answer` | Controllers/HomeController.cs:347-354 | Field `mN` is read from the lower-case key when it is present and non-null, then from the upper-case key. Otherwise it is `"0"` for m1-m5 and `""` for m6-m8. A null body yields the default. |
| `Survey.Language` | Controllers/HomeController.cs:188 | `lang` is the body's value when present and non-null, and `zh-TW` otherwise. The same read appears at :345. |
| `Survey.AnswerReadsOnlyItsKeys` | Controllers/HomeController.cs:189-193 | A numbered field depends only on the two spellings of its own key. |
| `Survey.NullBodyDefaults` | Controllers/HomeController.cs:345-354 | A null body reads as language `zh-TW`, with all five scores `"0"` and all three open answers empty. |
| `Survey.PlanInsights` | Controllers/HomeController.cs:356-365 | The endpoint replies at once exactly when m6, m7 and m8 are all white space. The reply is the fixed no-data message in English for `en-US`, otherwise in Chinese. In every other case generation goes ahead with the scores and answers that were read. |
| `Survey.WhiteSpaceFacts` | Controllers/HomeController.cs:359 | `char.IsWhiteSpace` (`Survey.IsWhiteSpace`) holds on ASCII exactly for tab through carriage return and the space. It holds for the no-break and ideographic spaces, and not for the zero-width space or the byte-order mark. |
| `Survey.BlankFacts` | Controllers/HomeController.cs:359 | `IsNullOrWhiteSpace` (`Survey.IsBlank`) holds for the empty string, and a concatenation is blank exactly when both parts are. |
| `Survey.SomeTextGenerates` | Controllers/HomeController.cs:359 | One non-white-space character in any of m6-m8 is enough to proceed to generation. |
| `Survey.NullBodyRepliesNoData` | Controllers/HomeController.cs:345-365 | A null body gets the Chinese no-data reply. |

## Left out

- The OpenAI calls are not modelled: `GeneratePersonalizedAdvice` after its input lookups, `GenerateInsights` after its guard, `TranslateAdviceToEnglish` and `TranslateToEnglish`. They are network I/O, JSON parsing of remote responses and prompt text. For `en-US` requests, the two generators first translate a cached `zh-TW` result from the session when there is one. On an exception they return a language-dependent error message that quotes the exception. The two translators return the original text when translation fails.
- Session handling is not modelled: `SubmitSurvey`, `GetSurveyData`, `ClearSurveyData` and the `_zh-TW` cache entries. This is session-store and JSON plumbing plus the wall clock.
- `Index`, `Privacy`, `Assessment`, `Error`, `EcpayReturn` and `Report` are not modelled. They only render views. `EcpayReturn` checks no inbound signature, and none is added here.
- `Program.cs` is not modelled: service registration, session options, localisation and pipeline wiring. From it, the model relies only on the fact that the request cultures are `zh-TW` and `en-US`. Under both, `ToLower` maps A-Z to a-z, which is how `Text.LowerChar` treats ASCII.
- The internals of SHA-256, `HttpUtility.UrlEncode`, `Encoding.UTF8`, the culture comparer and culture lower-casing beyond ASCII are library code. They are abstract `Platform` fields.
- `DateTime.Now` and its formatting into `yyyyMMddHHmmss` and `yyyy/MM/dd HH:mm:ss` are not modelled. The two formatted strings are parameters. The source reads the clock twice, so the parameters are independent.
- `CheckMac.Sign`: does not state that different inputs give different signatures. That rests on SHA-256 being collision resistant, which a proof over an abstract hash cannot show.
- `Ordering.SortByKey`: does not state the stability of `OrderBy`. The insertion places an earlier entry ahead of later tied ones, but no contract says so. Under the no-tie condition that the order-independence results need, stability cannot be observed.
- `CheckMac.SigningOrder`: does not state that entries whose keys tie keep their input order, which `OrderBy` guarantees. The body keeps them in order, as `CheckMac.TieMakesOrderMatter` shows. Under the no-tie condition that the order-independence results need, no two keys tie, so the order of tied entries cannot be observed.
- `Ordering.OrdinalLe` compares Dafny characters, which are Unicode scalar values. .NET ordinal comparison uses UTF-16 code units. The two differ only between supplementary-plane characters and BMP characters above the surrogate range.
- `Survey.PlanInsights`: the prompt text interpolated from the scores and answers is not modelled. The result only carries the values read.

=== FILE: checkmac.dfy ===
/** The ECPay request signer `GenCheckMacValue`. The library pieces it calls
    are supplied as a `Platform`: the default string comparer, URL encoding,
    the culture's lower-casing beyond ASCII, UTF-8 encoding and SHA-256. The
    model fixes only what the signer itself does with them. */
module CheckMac {
  import opened Fields
  import opened Ordering
  import opened Text
  import opened Hex

  /** A SHA-256 digest: 32 bytes (section 6.2 of FIPS 180-4). */
  type Digest = d: seq<byte> | |d| == 32 witness seq(32, _ => 0)

  datatype Platform = Platform(
    keyLe: KeyOrder,                  // Comparer<string>.Default
    urlEncode: string -> string,      // HttpUtility.UrlEncode
    lowerOther: char -> char,         // current culture's ToLower beyond ASCII
    utf8: string -> seq<byte>,        // Encoding.UTF8.GetBytes
    sha256: seq<byte> -> Digest)      // SHA256.ComputeHash

  /** The field that carries the signature and never takes part in it. */
  const ReservedKey: string := "CheckMacValue"

  function Render(f: Field): string {
    f.key + "=" + f.value
  }

  function RenderAll(fs: seq<Field>): (r: seq<string>)
    ensures |r| == |fs|
    ensures forall i :: 0 <= i < |fs| ==> r[i] == Render(fs[i])
  {
    if |fs| == 0 then [] else [Render(fs[0])] + RenderAll(fs[1..])
  }

  /** Steps 1 and 2: the entries that are signed, in the order they are
      signed in. */
  function SigningOrder(le: KeyOrder, fs: seq<Field>): (r: seq<Field>)
    ensures multiset(r) == multiset(Without(fs, ReservedKey))
    ensures forall f :: f in r <==> f in fs && f.key != ReservedKey
    ensures TotalPreorder(le) ==> SortedByKey(le, r)
  {
    var kept := Without(fs, ReservedKey);
    var r := SortByKey(le, kept);
    assert forall f :: f in r <==> f in multiset(kept);
    r
  }

  /** Step 4: the joined entries wrapped between the two secrets. */
  function Wrap(hashKey: string, joined: string, hashIV: string): string {
    "HashKey=" + hashKey + "&" + joined + "&HashIV=" + hashIV
  }

  /** Steps 3 and 4: the string that is encoded and hashed. */
  function Canonical(le: KeyOrder, fs: seq<Field>, hashKey: string, hashIV: string): (r: string)
    ensures var head := "HashKey=" + hashKey + "&";
      |head| <= |r| && r[..|head|] == head
    ensures var tail := "&HashIV=" + hashIV;
      |tail| <= |r| && r[|r| - |tail|..] == tail
  {
    Wrap(hashKey, Join("&", RenderAll(SigningOrder(le, fs))), hashIV)
  }

  /** Step 5: URL-encoded, then lower-cased as a whole. */
  function HashInput(p: Platform, fs: seq<Field>, hashKey: string, hashIV: string): (r: string)
    ensures var encoded := p.urlEncode(Canonical(p.keyLe, fs, hashKey, hashIV));
      && |r| == |encoded|
      && (forall i :: 0 <= i < |r| && encoded[i] as int < 128 && !IsAsciiUpper(encoded[i]) ==> r[i] == encoded[i])
      && (forall i :: 0 <= i < |r| && IsAsciiUpper(encoded[i]) ==>
            IsAsciiLower(r[i]) && r[i] as int - encoded[i] as int == 'a' as int - 'A' as int)
    ensures LowersCleanly(p.lowerOther) ==> forall i :: 0 <= i < |r| ==> !IsAsciiUpper(r[i])
  {
    ToLower(p.lowerOther, p.urlEncode(Canonical(p.keyLe, fs, hashKey, hashIV)))
  }

  /** Step 6: SHA-256 over the UTF-8 bytes. */
  function DigestOf(p: Platform, fs: seq<Field>, hashKey: string, hashIV: string): Digest {
    p.sha256(p.utf8(HashInput(p, fs, hashKey, hashIV)))
  }

  /** `GenCheckMacValue`: the digest as 64 upper-case hex digits, two per
      byte, no dashes; reading them back yields the digest. */
  function Sign(p: Platform, fs: seq<Field>, hashKey: string, hashIV: string): (r: string)
    ensures |r| == 64
    ensures forall i :: 0 <= i < |r| ==> IsUpperHexDigit(r[i])
    ensures DecodeHex(r) == Wrappers.Some(DigestOf(p, fs, hashKey, hashIV))
  {
    var d := DigestOf(p, fs, hashKey, hashIV);
    DecodeUpperHex(d);
    UpperHex(d)
  }

  /** Reading the pre-encoding string back at its ampersands gives the
      `HashKey` piece, the rendered entries in signing order, and the
      `HashIV` piece; with no entries left there is one empty piece between
      them, the `HashKey=k&&HashIV=iv` case. */
  lemma {:induction false} CanonicalReadsBack(le: KeyOrder, fs: seq<Field>, hashKey: string, hashIV: string)
    requires '&' !in hashKey && '&' !in hashIV
    requires forall f :: f in fs ==> '&' !in f.key && '&' !in f.value
    ensures var rendered := RenderAll(SigningOrder(le, fs));
      Split(Canonical(le, fs, hashKey, hashIV), '&')
        == ["HashKey=" + hashKey] + (if |rendered| == 0 then [""] else rendered) + ["HashIV=" + hashIV]
  {
    var rendered := RenderAll(SigningOrder(le, fs));
    RenderedHasNoAmpersand(le, fs);
    WrapFrame(hashKey, Join("&", rendered), hashIV);
    FramedSplit("HashKey=" + hashKey, rendered, "HashIV=" + hashIV, '&');
  }

  lemma RenderedHasNoAmpersand(le: KeyOrder, fs: seq<Field>)
    requires forall f :: f in fs ==> '&' !in f.key && '&' !in f.value
    ensures var rendered := RenderAll(SigningOrder(le, fs));
      forall i :: 0 <= i < |rendered| ==> '&' !in rendered[i]
  {
    var order := SigningOrder(le, fs);
    forall i | 0 <= i < |order|
      ensures '&' !in Render(order[i])
    {
      assert order[i] in order;
    }
  }

  lemma WrapFrame(hashKey: string, joined: string, hashIV: string)
    ensures '&' !in hashKey ==> '&' !in "HashKey=" + hashKey
    ensures '&' !in hashIV ==> '&' !in "HashIV=" + hashIV
    ensures Wrap(hashKey, joined, hashIV)
      == ("HashKey=" + hashKey) + ['&'] + joined + ['&'] + ("HashIV=" + hashIV)
  {
    assert "&HashIV=" + hashIV == ['&'] + ("HashIV=" + hashIV);
  }

  /** With no entry left to sign the string degenerates to a double
      ampersand between the two secrets. */
  lemma EmptyCanonical(le: KeyOrder, fs: seq<Field>, hashKey: string, hashIV: string)
    requires forall f :: f in fs ==> f.key == ReservedKey
    ensures Canonical(le, fs, hashKey, hashIV) == "HashKey=" + hashKey + "&&HashIV=" + hashIV
  {
    assert RenderAll(SigningOrder(le, fs)) == [];
  }

  /** The string handed to UTF-8 and SHA-256 holds no ASCII capital, and
      lower-casing it again would change nothing. */
  lemma HashInputIsLowerCase(p: Platform, fs: seq<Field>, hashKey: string, hashIV: string)
    requires LowersCleanly(p.lowerOther)
    ensures var s := HashInput(p, fs, hashKey, hashIV);
      && (forall i :: 0 <= i < |s| ==> !IsAsciiUpper(s[i]))
      && ToLower(p.lowerOther, s) == s
  {
    ToLowerSettles(p.lowerOther, p.urlEncode(Canonical(p.keyLe, fs, hashKey, hashIV)));
  }

  lemma {:induction false} WithoutPut(fs: seq<Field>, k: string, v: string)
    ensures Without(Put(fs, k, v), k) == Without(fs, k)
  {
    if |fs| > 0 && fs[0].key != k {
      WithoutPut(fs[1..], k, v);
      assert Put(fs, k, v)[1..] == Put(fs[1..], k, v);
    } else if |fs| > 0 {
      assert Put(fs, k, v)[1..] == fs[1..];
    }
  }

  lemma {:induction false} WithoutTwice(fs: seq<Field>, k: string)
    ensures Without(Without(fs, k), k) == Without(fs, k)
  {
    if |fs| > 0 {
      WithoutTwice(fs[1..], k);
      if fs[0].key != k {
        assert Without(fs, k)[1..] == Without(fs[1..], k);
      }
    }
  }

  /** An entry keyed `CheckMacValue` never influences the signature:
      storing one (new or replacing the old) or removing it leaves the
      signature as it was. */
  lemma {:induction false} ReservedKeyIgnored(p: Platform, fs: seq<Field>, v: string, hashKey: string, hashIV: string)
    ensures Sign(p, Put(fs, ReservedKey, v), hashKey, hashIV) == Sign(p, fs, hashKey, hashIV)
    ensures Sign(p, Without(fs, ReservedKey), hashKey, hashIV) == Sign(p, fs, hashKey, hashIV)
  {
    WithoutPut(fs, ReservedKey, v);
    WithoutTwice(fs, ReservedKey);
  }

  /** Insertion order does not matter: two arrangements of the same
      dictionary entries sign alike, provided the comparer never ranks two
      of its different keys equal. */
  lemma {:induction false} OrderIndependent(p: Platform, a: seq<Field>, b: seq<Field>, hashKey: string, hashIV: string)
    requires TotalPreorder(p.keyLe)
    requires DistinctKeys(a)
    requires NoTies(p.keyLe, a)
    requires Rearranges(a, b)
    ensures Canonical(p.keyLe, a, hashKey, hashIV) == Canonical(p.keyLe, b, hashKey, hashIV)
    ensures Sign(p, a, hashKey, hashIV) == Sign(p, b, hashKey, hashIV)
  {
    var ka := Without(a, ReservedKey);
    var kb := Without(b, ReservedKey);
    WithoutPermutation(a, b, ReservedKey);
    DistinctKeysRanked(p.keyLe, a);
    RankedSubBag(p.keyLe, multiset(ka), multiset(a));
    RankedSortsAlike(p.keyLe, ka, kb);
    assert SigningOrder(p.keyLe, a) == SigningOrder(p.keyLe, b);
  }

  lemma WithoutPermutation(a: seq<Field>, b: seq<Field>, k: string)
    requires Rearranges(a, b)
    ensures Rearranges(Without(a, k), Without(b, k))
    ensures multiset(Without(a, k)) <= multiset(a)
  {
    var ma, mb := multiset(Without(a, k)), multiset(Without(b, k));
    forall f
      ensures ma[f] == mb[f] && ma[f] <= multiset(a)[f]
    {
    }
  }

  lemma RankedSubBag(le: KeyOrder, m: multiset<Field>, n: multiset<Field>)
    requires m <= n
    requires Ranked(le, n)
    ensures Ranked(le, m)
  {
  }

  /** Without the no-tie condition the signature can depend on insertion
      order: under a comparer that ranks all keys equal, the stable sort
      keeps the input order. */
  lemma TieMakesOrderMatter()
    ensures var all: KeyOrder := (a, b) => true;
      Canonical(all, [Field("a", "1"), Field("b", "2")], "k", "iv")
        != Canonical(all, [Field("b", "2"), Field("a", "1")], "k", "iv")
  {
    var fa, fb := Field("a", "1"), Field("b", "2");
    TiedPairKeepsOrder(fa, fb);
    TiedPairKeepsOrder(fb, fa);
    FirstJoinedChar("k", [Render(fa), Render(fb)], "iv");
    FirstJoinedChar("k", [Render(fb), Render(fa)], "iv");
  }

  /** The first character after `HashKey=<k>&` is the first rendered one. */
  lemma FirstJoinedChar(hashKey: string, rendered: seq<string>, hashIV: string)
    requires |rendered| == 2 && |rendered[0]| > 0
    ensures Wrap(hashKey, Join("&", rendered), hashIV)[|hashKey| + 9] == rendered[0][0]
  {
    var joined := Join("&", rendered);
    assert |rendered[1..]| == 1 && rendered[1..][0] == rendered[1];
    assert Join("&", rendered[1..]) == rendered[1];
    assert joined == rendered[0] + "&" + rendered[1];
    var w := Wrap(hashKey, joined, hashIV);
    assert w == ("HashKey=" + hashKey + "&") + (joined + "&HashIV=" + hashIV);
  }

  lemma {:induction false} TiedPairKeepsOrder(x: Field, y: Field)
    requires x.key != ReservedKey && y.key != ReservedKey
    ensures var all: KeyOrder := (a, b) => true;
      RenderAll(SigningOrder(all, [x, y])) == [Render(x), Render(y)]
  {
    var all: KeyOrder := (a, b) => true;
    KeptPair(x, y);
    SortTiedPair(all, x, y);
    assert [x, y][1..] == [y];
  }

  lemma KeptPair(x: Field, y: Field)
    requires x.key != ReservedKey && y.key != ReservedKey
    ensures Without([x, y], ReservedKey) == [x, y]
  {
    assert [x, y][1..] == [y];
    assert [y][1..] == [];
    assert Without([y], ReservedKey) == [y];
  }

  lemma SortTiedPair(le: KeyOrder, x: Field, y: Field)
    requires le(x.key, y.key)
    ensures SortByKey(le, [x, y]) == [x, y]
  {
    assert [x, y][1..] == [y];
    assert SortByKey(le, [y]) == [y];
  }
}

=== FILE: ecpay.dfy ===
/** `GetEcpayFormData`: the fixed payment request for the report, signed
    with the merchant's test credentials. The two timestamps come from the
    clock and are parameters here. */
module Ecpay {
  import opened Wrappers
  import opened Fields
  import opened CheckMac
  import Ordering
  import Text

  /** The local port the return URLs point at (`PORT`). */
  const Port: nat := 5163
  const BaseUrl: string := "http://localhost:" + Text.Decimal(Port)

  const MerchantHashKey: string := "5294y06JbISpM5x9"
  const MerchantHashIV: string := "v77hoKGq4kWxNNIS"

  /** The thirteen business fields in the order they are added. */
  const BusinessKeys: seq<string> := [
    "MerchantID", "MerchantTradeNo", "MerchantTradeDate", "PaymentType",
    "TotalAmount", "TradeDesc", "ItemName", "ReturnURL", "ChoosePayment",
    "EncryptType", "ClientBackURL", "OrderResultURL", "NeedExtraPaidInfo"]

  /** `stamp` is the clock rendered as `yyyyMMddHHmmss`, `date` as
      `yyyy/MM/dd HH:mm:ss`. */
  function BusinessValues(stamp: string, date: string): seq<string> {
    [ "2000132", "DOC" + stamp, date, "aio", "2990", "Doc Engine Report",
      "Risk Assessment Report", BaseUrl + "/Home/EcpayReturn", "Credit", "1",
      BaseUrl + "/Home/Report", BaseUrl + "/Home/EcpayReturn", "N" ]
  }

  function BusinessFields(stamp: string, date: string): seq<Field> {
    Initialise(BusinessKeys, BusinessValues(stamp, date))
  }

  /** The returned form: the thirteen business fields followed by
      `CheckMacValue`, keys distinct, each business key holding the value
      the initialiser gives it, and the stored signature is the one the form
      itself signs to, so a receiver recomputing it over the form with the
      same secrets finds it valid. */
  function EcpayForm(p: Platform, stamp: string, date: string): (form: seq<Field>)
    ensures Keys(form) == BusinessKeys + [ReservedKey]
    ensures DistinctKeys(form)
    ensures forall i :: 0 <= i < |BusinessKeys| ==>
      Lookup(form, BusinessKeys[i]) == Some(BusinessValues(stamp, date)[i])
    ensures Lookup(form, ReservedKey) == Some(Sign(p, form, MerchantHashKey, MerchantHashIV))
  {
    var fields := BusinessFields(stamp, date);
    var mac := Sign(p, fields, MerchantHashKey, MerchantHashIV);
    BusinessFieldFacts(stamp, date);
    SignedFormFacts(p, fields, mac);
    FormLookups(stamp, date, mac);
    Put(fields, ReservedKey, mac)
  }

  /** Storing the signature leaves every business key reading as the
      initialiser wrote it. */
  lemma FormLookups(stamp: string, date: string, mac: string)
    ensures var form := Put(BusinessFields(stamp, date), ReservedKey, mac);
      forall i :: 0 <= i < |BusinessKeys| ==>
        Lookup(form, BusinessKeys[i]) == Some(BusinessValues(stamp, date)[i])
  {
    var fields := BusinessFields(stamp, date);
    var values := BusinessValues(stamp, date);
    BusinessKeysDistinct();
    BusinessLayout(stamp, date);
    forall i | 0 <= i < |BusinessKeys|
      ensures Lookup(Put(fields, ReservedKey, mac), BusinessKeys[i]) == Some(values[i])
    {
      FromPairsLookup(BusinessKeys, values, i);
      PutLookup(fields, ReservedKey, mac, BusinessKeys[i]);
    }
  }

  /** A receiver that holds the form's entries in any other order, and
      sorts keys with a comparer that never ties two of them, recomputes the
      stored `CheckMacValue`. */
  lemma {:induction false} FormVerifiesInAnyOrder(p: Platform, stamp: string, date: string, received: seq<Field>)
    requires Ordering.TotalPreorder(p.keyLe)
    requires Ordering.NoTies(p.keyLe, EcpayForm(p, stamp, date))
    requires Ordering.Rearranges(EcpayForm(p, stamp, date), received)
    ensures Lookup(EcpayForm(p, stamp, date), ReservedKey)
      == Some(Sign(p, received, MerchantHashKey, MerchantHashIV))
  {
    var form := EcpayForm(p, stamp, date);
    OrderIndependent(p, form, received, MerchantHashKey, MerchantHashIV);
  }

  lemma {:induction false} SignedFormFacts(p: Platform, fields: seq<Field>, mac: string)
    requires mac == Sign(p, fields, MerchantHashKey, MerchantHashIV)
    requires DistinctKeys(fields) && ReservedKey !in Keys(fields)
    ensures var form := Put(fields, ReservedKey, mac);
      && Keys(form) == Keys(fields) + [ReservedKey]
      && DistinctKeys(form)
      && Lookup(form, ReservedKey) == Some(Sign(p, form, MerchantHashKey, MerchantHashIV))
  {
    PutKeepsDistinct(fields, ReservedKey, mac);
    PutLookup(fields, ReservedKey, mac, ReservedKey);
    ReservedKeyIgnored(p, fields, mac, MerchantHashKey, MerchantHashIV);
  }

  lemma BusinessFieldFacts(stamp: string, date: string)
    ensures Keys(BusinessFields(stamp, date)) == BusinessKeys
    ensures ReservedKey !in BusinessKeys
    ensures DistinctKeys(BusinessFields(stamp, date))
    ensures Lookup(BusinessFields(stamp, date), "MerchantTradeNo") == Some("DOC" + stamp)
    ensures Lookup(BusinessFields(stamp, date), "MerchantTradeDate") == Some(date)
  {
    BusinessKeysDistinct();
    BusinessLayout(stamp, date);
    var fields := BusinessFields(stamp, date);
    assert fields[1] == Field("MerchantTradeNo", "DOC" + stamp);
    assert fields[2] == Field("MerchantTradeDate", date);
    LookupEntry(fields, 1);
    LookupEntry(fields, 2);
  }

  /** The business keys are distinct, so the initialiser lays the fields
      out as written. */
  lemma BusinessLayout(stamp: string, date: string)
    ensures BusinessFields(stamp, date) == FromPairs(BusinessKeys, BusinessValues(stamp, date))
  {
    BusinessKeysDistinct();
    InitialiseIsFromPairs(BusinessKeys, BusinessValues(stamp, date));
  }

  lemma BusinessKeysDistinct()
    ensures ReservedKey !in BusinessKeys
    ensures Distinct(BusinessKeys)
  {
    KeysDistinct();
    var ks := BusinessKeys + [ReservedKey];
    assert BusinessKeys == ks[..13];
    assert ReservedKey == ks[13];
  }

  /** The fourteen keys of the form differ pairwise: no two agree in
      length, first and third character. */
  lemma KeysDistinct()
    ensures Distinct(BusinessKeys + [ReservedKey])
  {
    var ks := BusinessKeys + [ReservedKey];
    var tags := seq(|ks|, i requires 0 <= i < |ks| => Tag(ks[i]));
    assert tags == [
      (10, 'M', 'r'), (15, 'M', 'r'), (17, 'M', 'r'), (11, 'P', 'y'),
      (11, 'T', 't'), (9, 'T', 'a'), (8, 'I', 'e'), (9, 'R', 't'),
      (13, 'C', 'o'), (11, 'E', 'c'), (13, 'C', 'i'), (14, 'O', 'd'),
      (17, 'N', 'e'), (13, 'C', 'e')];
    forall i, j | 0 <= i < j < |ks|
      ensures ks[i] != ks[j]
    {
      assert tags[i] != tags[j];
    }
  }

  function Tag(s: string): (int, char, char) {
    if |s| < 3 then (|s|, ' ', ' ') else (|s|, s[0], s[2])
  }
}

=== FILE: fields.dfy ===
/** The transaction field set of a payment request: the
    `Dictionary<string, string>` that `GenCheckMacValue` signs, as its entries
    in enumeration order. A dictionary never holds two entries with one key;
    `DistinctKeys` is that invariant. */
module Fields {
  import opened Wrappers

  datatype Field = Field(key: string, value: string)

  predicate Distinct(s: seq<string>) {
    forall i, j :: 0 <= i < j < |s| ==> s[i] != s[j]
  }

  predicate DistinctKeys(fs: seq<Field>) {
    Distinct(Keys(fs))
  }

  /** The sequence of keys, in entry order. */
  function Keys(fs: seq<Field>): (ks: seq<string>)
    ensures |ks| == |fs|
    ensures forall i :: 0 <= i < |fs| ==> ks[i] == fs[i].key
  {
    if |fs| == 0 then [] else [fs[0].key] + Keys(fs[1..])
  }

  /** `TryGetValue`: the value stored under `k`, if any. */
  function Lookup(fs: seq<Field>, k: string): (r: Option<string>)
    ensures r.None? <==> k !in Keys(fs)
    ensures r.Some? ==> Field(k, r.value) in fs
  {
    if |fs| == 0 then None
    else if fs[0].key == k then Some(fs[0].value)
    else Lookup(fs[1..], k)
  }

  /** The dictionary indexer assignment `d[k] = v`: an existing entry is
      overwritten where it stands, otherwise the entry is appended. */
  function Put(fs: seq<Field>, k: string, v: string): (r: seq<Field>)
    ensures Keys(r) == if k in Keys(fs) then Keys(fs) else Keys(fs) + [k]
  {
    if |fs| == 0 then [Field(k, v)]
    else if fs[0].key == k then
      var r := [Field(k, v)] + fs[1..];
      assert r[1..] == fs[1..];
      r
    else
      var r := [fs[0]] + Put(fs[1..], k, v);
      assert r[1..] == Put(fs[1..], k, v);
      assert Keys(fs) == [fs[0].key] + Keys(fs[1..]);
      r
  }

  /** Reading the key of an entry of a dictionary gives that entry's value. */
  lemma {:induction false} LookupEntry(fs: seq<Field>, i: nat)
    requires DistinctKeys(fs)
    requires i < |fs|
    ensures Lookup(fs, fs[i].key) == Some(fs[i].value)
  {
    if i > 0 {
      assert Keys(fs)[0] != Keys(fs)[i];
      assert DistinctKeys(fs[1..]) by {
        assert forall j :: 0 <= j < |fs| - 1 ==> Keys(fs[1..])[j] == Keys(fs)[j + 1];
      }
      LookupEntry(fs[1..], i - 1);
    }
  }

  /** The keys paired with the values in order: the layout an initialiser
      with distinct keys produces (see `InitialiseIsFromPairs`). */
  function FromPairs(ks: seq<string>, vs: seq<string>): (fs: seq<Field>)
    requires |ks| == |vs|
    ensures Keys(fs) == ks
    ensures forall i :: 0 <= i < |fs| ==> fs[i] == Field(ks[i], vs[i])
  {
    seq(|ks|, i requires 0 <= i < |ks| => Field(ks[i], vs[i]))
  }

  /** In a dictionary built by an initialiser with distinct keys, each key
      reads as the value written beside it. */
  lemma FromPairsLookup(ks: seq<string>, vs: seq<string>, i: nat)
    requires |ks| == |vs| && Distinct(ks)
    requires i < |ks|
    ensures Lookup(FromPairs(ks, vs), ks[i]) == Some(vs[i])
  {
    LookupEntry(FromPairs(ks, vs), i);
  }

  /** After `d[k] = v`, reading `k` gives `v` and every other key reads as
      before. */
  lemma {:induction false} PutLookup(fs: seq<Field>, k: string, v: string, k': string)
    ensures Lookup(Put(fs, k, v), k') == if k' == k then Some(v) else Lookup(fs, k')
  {
    if |fs| > 0 && fs[0].key != k {
      PutLookup(fs[1..], k, v, k');
    }
  }

  /** Assigning a key the dictionary lacks appends one entry at the end. */
  lemma {:induction false} PutAppends(fs: seq<Field>, k: string, v: string)
    requires k !in Keys(fs)
    ensures Put(fs, k, v) == fs + [Field(k, v)]
  {
    if |fs| > 0 {
      assert Keys(fs)[0] == fs[0].key;
      assert k !in Keys(fs[1..]) by {
        forall j | 0 <= j < |fs| - 1
          ensures Keys(fs[1..])[j] == Keys(fs)[j + 1]
        {
        }
      }
      PutAppends(fs[1..], k, v);
      assert Put(fs, k, v) == [fs[0]] + Put(fs[1..], k, v);
      assert [fs[0]] + (fs[1..] + [Field(k, v)]) == fs + [Field(k, v)];
    }
  }

  /** A collection initialiser `new Dictionary<string, string> { [k] = v, ... }`:
      one indexer assignment per line, starting from the empty dictionary,
      so a repeated key overwrites the earlier value where it stands. */
  function Initialise(ks: seq<string>, vs: seq<string>): (fs: seq<Field>)
    requires |ks| == |vs|
    ensures DistinctKeys(fs)
    ensures forall k :: k in Keys(fs) <==> k in ks
  {
    if |ks| == 0 then []
    else
      var n := |ks| - 1;
      var front := Initialise(ks[..n], vs[..n]);
      PutKeepsDistinct(front, ks[n], vs[n]);
      assert ks == ks[..n] + [ks[n]];
      Put(front, ks[n], vs[n])
  }

  /** With distinct keys the initialiser lays the entries out in the order
      written, each key beside its value. */
  lemma {:induction false} InitialiseIsFromPairs(ks: seq<string>, vs: seq<string>)
    requires |ks| == |vs| && Distinct(ks)
    ensures Initialise(ks, vs) == FromPairs(ks, vs)
  {
    if |ks| > 0 {
      var n := |ks| - 1;
      var front := FromPairs(ks[..n], vs[..n]);
      assert Distinct(ks[..n]);
      InitialiseIsFromPairs(ks[..n], vs[..n]);
      InitialiseStep(ks, vs);
      assert ks[n] !in Keys(front);
      PutAppends(front, ks[n], vs[n]);
      FromPairsSnoc(ks, vs);
    }
  }

  /** The last line that assigns a key decides its value. */
  lemma {:induction false} InitialiseLookup(ks: seq<string>, vs: seq<string>, i: nat)
    requires |ks| == |vs| && i < |ks|
    requires forall j :: i < j < |ks| ==> ks[j] != ks[i]
    ensures Lookup(Initialise(ks, vs), ks[i]) == Some(vs[i])
  {
    var n := |ks| - 1;
    if i == n {
      InitialiseLast(ks, vs);
    } else {
      var ks', vs' := ks[..n], vs[..n];
      assert ks'[i] == ks[i] && vs'[i] == vs[i];
      assert forall j :: i < j < |ks'| ==> ks'[j] != ks'[i];
      InitialiseLookup(ks', vs', i);
      InitialiseEarlier(ks, vs, i);
    }
  }

  lemma InitialiseLast(ks: seq<string>, vs: seq<string>)
    requires |ks| == |vs| > 0
    ensures Lookup(Initialise(ks, vs), ks[|ks| - 1]) == Some(vs[|vs| - 1])
  {
    var n := |ks| - 1;
    InitialiseStep(ks, vs);
    PutLookup(Initialise(ks[..n], vs[..n]), ks[n], vs[n], ks[n]);
  }

  lemma InitialiseEarlier(ks: seq<string>, vs: seq<string>, i: nat)
    requires |ks| == |vs| && i + 1 < |ks|
    requires ks[i] != ks[|ks| - 1]
    ensures var n := |ks| - 1;
      Lookup(Initialise(ks, vs), ks[i]) == Lookup(Initialise(ks[..n], vs[..n]), ks[..n][i])
  {
    var n := |ks| - 1;
    InitialiseStep(ks, vs);
    PutLookup(Initialise(ks[..n], vs[..n]), ks[n], vs[n], ks[i]);
  }

  lemma FromPairsSnoc(ks: seq<string>, vs: seq<string>)
    requires |ks| == |vs| > 0
    ensures var n := |ks| - 1;
      FromPairs(ks, vs) == FromPairs(ks[..n], vs[..n]) + [Field(ks[n], vs[n])]
  {
  }

  lemma InitialiseStep(ks: seq<string>, vs: seq<string>)
    requires |ks| == |vs| > 0
    ensures var n := |ks| - 1;
      Initialise(ks, vs) == Put(Initialise(ks[..n], vs[..n]), ks[n], vs[n])
  {
  }

  /** Assigning through the indexer keeps the dictionary's keys distinct. */
  lemma PutKeepsDistinct(fs: seq<Field>, k: string, v: string)
    requires DistinctKeys(fs)
    ensures DistinctKeys(Put(fs, k, v))
  {
    var ks := Keys(Put(fs, k, v));
    if k !in Keys(fs) {
      assert ks == Keys(fs) + [k];
      assert forall i :: 0 <= i < |Keys(fs)| ==> ks[i] != k;
    }
  }

  /** The LINQ filter `Where(x => x.Key != k)`: every entry keyed `k` is
      dropped, the others keep their relative order. */
  function Without(fs: seq<Field>, k: string): (r: seq<Field>)
    ensures forall f {:trigger multiset(r)[f]} :: multiset(r)[f] == (if f.key == k then 0 else multiset(fs)[f])
  {
    if |fs| == 0 then []
    else
      var rest := Without(fs[1..], k);
      assert fs == [fs[0]] + fs[1..];
      if fs[0].key == k then rest else [fs[0]] + rest
  }

  /** `Where` keeps the surviving entries in their input order: filtering a
      concatenation filters each part, and a single entry is kept exactly
      when its key differs from `k`. Together these fix the result entry by
      entry. */
  lemma {:induction false} WithoutAppend(a: seq<Field>, b: seq<Field>, k: string)
    ensures Without(a + b, k) == Without(a, k) + Without(b, k)
    ensures |a| == 1 ==> Without(a, k) == (if a[0].key == k then [] else a)
  {
    if |a| == 0 {
      assert a + b == b;
    } else {
      assert (a + b)[1..] == a[1..] + b;
      assert (a + b)[0] == a[0];
      WithoutAppend(a[1..], b, k);
      if |a| == 1 {
        assert a[1..] == [];
        assert a == [a[0]];
      }
    }
  }
}

=== FILE: hex.dfy ===
/** Rendering of the SHA-256 digest: `BitConverter.ToString(bytes)` writes
    each byte as two upper-case hex digits separated by dashes; the signer
    then strips the dashes and upper-cases the result. */
module Hex {
  import opened Wrappers
  import opened Text

  type byte = b: int | 0 <= b < 256

  const Digits: string := "0123456789ABCDEF"

  predicate IsUpperHexDigit(c: char) {
    '0' <= c <= '9' || 'A' <= c <= 'F'
  }

  function ByteHex(b: byte): string {
    [Digits[b / 16], Digits[b % 16]]
  }

  /** The per-byte pieces `BitConverter.ToString` joins. */
  function BytePieces(bs: seq<byte>): (ps: seq<string>)
    ensures |ps| == |bs|
    ensures forall i :: 0 <= i < |bs| ==> ps[i] == ByteHex(bs[i])
  {
    if |bs| == 0 then [] else [ByteHex(bs[0])] + BytePieces(bs[1..])
  }

  /** `BitConverter.ToString(bytes)`, e.g. "0A-FF-10". */
  function BitConverterString(bs: seq<byte>): string {
    Join("-", BytePieces(bs))
  }

  /** Reference rendering: the two digits of every byte, back to back. */
  function HexConcat(bs: seq<byte>): (r: string)
    ensures |r| == 2 * |bs|
    ensures forall i :: 0 <= i < |r| ==> IsUpperHexDigit(r[i])
  {
    if |bs| == 0 then "" else ByteHex(bs[0]) + HexConcat(bs[1..])
  }

  /** `BitConverter.ToString(bytes).Replace("-", "").ToUpper()`: exactly the
      two upper-case digits of every byte, without separators. */
  function UpperHex(bs: seq<byte>): (r: string)
    ensures r == HexConcat(bs)
    ensures |r| == 2 * |bs|
    ensures '-' !in r
    ensures forall i :: 0 <= i < |r| ==> IsUpperHexDigit(r[i])
  {
    var stripped := RemoveChar(BitConverterString(bs), '-');
    StrippedIsConcat(bs);
    ToUpperAscii(stripped)
  }

  lemma {:induction false} StrippedIsConcat(bs: seq<byte>)
    ensures RemoveChar(BitConverterString(bs), '-') == HexConcat(bs)
  {
    if |bs| == 1 {
      assert BytePieces(bs) == [ByteHex(bs[0])];
      NoDash(ByteHex(bs[0]));
    } else if |bs| > 1 {
      StrippedIsConcat(bs[1..]);
      assert BytePieces(bs)[1..] == BytePieces(bs[1..]);
      var head := ByteHex(bs[0]);
      var tail := Join("-", BytePieces(bs[1..]));
      assert BitConverterString(bs) == head + ("-" + tail);
      RemoveCharConcat(head, "-" + tail, '-');
      NoDash(head);
      assert ("-" + tail)[1..] == tail;
      assert RemoveChar("-" + tail, '-') == RemoveChar(tail, '-');
      assert RemoveChar(tail, '-') == HexConcat(bs[1..]);
    }
  }

  lemma NoDash(s: string)
    requires forall i :: 0 <= i < |s| ==> IsUpperHexDigit(s[i])
    ensures RemoveChar(s, '-') == s
  {
    if |s| > 0 {
      NoDash(s[1..]);
      assert s == [s[0]] + s[1..];
    }
  }

  lemma {:induction false} RemoveCharConcat(s: string, t: string, c: char)
    ensures RemoveChar(s + t, c) == RemoveChar(s, c) + RemoveChar(t, c)
  {
    if |s| == 0 {
      assert s + t == t;
    } else {
      assert (s + t)[1..] == s[1..] + t;
      RemoveCharConcat(s[1..], t, c);
    }
  }

  /** The value of one hex digit, either case; `None` for anything else. */
  function DigitValue(c: char): (r: Option<nat>)
    ensures r.Some? ==> r.value < 16
  {
    if '0' <= c <= '9' then Some(c as int - '0' as int)
    else if 'A' <= c <= 'F' then Some(c as int - 'A' as int + 10)
    else if 'a' <= c <= 'f' then Some(c as int - 'a' as int + 10)
    else None
  }

  /** Reads a hex string back into bytes, two digits per byte. */
  function DecodeHex(s: string): (r: Option<seq<byte>>)
    ensures r.Some? ==> |s| == 2 * |r.value|
    decreases |s|
  {
    if |s| == 0 then Some([])
    else if |s| == 1 then None
    else
      match (DigitValue(s[0]), DigitValue(s[1]), DecodeHex(s[2..]))
      case (Some(hi), Some(lo), Some(rest)) => Some([(hi * 16 + lo) as byte] + rest)
      case _ => None
  }

  /** The rendering loses nothing: decoding it returns the digest bytes. */
  lemma {:induction false} DecodeUpperHex(bs: seq<byte>)
    ensures DecodeHex(UpperHex(bs)) == Some(bs)
  {
    if |bs| > 0 {
      DecodeUpperHex(bs[1..]);
      var s := HexConcat(bs);
      assert s[2..] == HexConcat(bs[1..]);
      var b := bs[0];
      assert DigitValue(Digits[b / 16]) == Some(b / 16);
      assert DigitValue(Digits[b % 16]) == Some(b % 16);
      assert bs == [bs[0]] + bs[1..];
    }
  }
}

=== FILE: ordering.dfy ===
/** `OrderBy(x => x.Key)`: a stable sort of the entries by key under the
    comparer the runtime supplies. `Comparer<string>.Default` is
    culture-sensitive, so the comparer is a parameter `le` ("sorts no later
    than") about which only the laws of a total preorder are assumed. A
    culture comparer may rank two different strings equal; `Tied` names that. */
module Ordering {
  import opened Fields

  type KeyOrder = (string, string) -> bool

  ghost predicate TotalPreorder(le: KeyOrder) {
    && (forall a, b :: le(a, b) || le(b, a))
    && (forall a, b, c :: le(a, b) && le(b, c) ==> le(a, c))
  }

  predicate Tied(le: KeyOrder, a: string, b: string) {
    le(a, b) && le(b, a)
  }

  /** The comparer never ranks two different keys of `fs` equal. */
  ghost predicate NoTies(le: KeyOrder, fs: seq<Field>) {
    forall x, y :: x in fs && y in fs && x.key != y.key ==> !Tied(le, x.key, y.key)
  }

  /** `b` holds the entries of `a`, each as often: a reordering of `a`. */
  ghost predicate Rearranges(a: seq<Field>, b: seq<Field>) {
    forall f {:trigger multiset(a)[f]} :: multiset(a)[f] == multiset(b)[f]
  }

  ghost predicate SortedByKey(le: KeyOrder, fs: seq<Field>) {
    forall i, j :: 0 <= i < j < |fs| ==> le(fs[i].key, fs[j].key)
  }

  /** A bag of entries no two of which the comparer could put in either
      order: each entry occurs once and no two keys tie. */
  ghost predicate Ranked(le: KeyOrder, m: multiset<Field>) {
    && (forall f :: m[f] <= 1)
    && (forall x, y :: x in m && y in m && x != y ==> !Tied(le, x.key, y.key))
  }

  /** Places `f` before the first entry it sorts no later than, so that `f`,
      which came first in the input, stays ahead of entries tied with it. */
  function Insert(le: KeyOrder, f: Field, fs: seq<Field>): (r: seq<Field>)
    ensures multiset(r) == multiset(fs) + multiset{f}
    ensures TotalPreorder(le) && SortedByKey(le, fs) ==> SortedByKey(le, r)
  {
    if |fs| == 0 then [f]
    else if le(f.key, fs[0].key) then
      FrontSorted(le, f, fs);
      [f] + fs
    else
      var rest := Insert(le, f, fs[1..]);
      assert fs == [fs[0]] + fs[1..];
      AfterHeadSorted(le, f, fs, rest);
      [fs[0]] + rest
  }

  /** Consing an entry that ranks no later than every entry of a sorted
      sequence keeps it sorted. */
  lemma ConsSorted(le: KeyOrder, x: Field, xs: seq<Field>)
    requires SortedByKey(le, xs)
    requires forall y :: y in xs ==> le(x.key, y.key)
    ensures SortedByKey(le, [x] + xs)
  {
    var r := [x] + xs;
    forall i, j | 0 <= i < j < |r|
      ensures le(r[i].key, r[j].key)
    {
      if i == 0 {
        assert r[j] == xs[j - 1];
      } else {
        assert r[i] == xs[i - 1] && r[j] == xs[j - 1];
      }
    }
  }

  lemma FrontSorted(le: KeyOrder, f: Field, fs: seq<Field>)
    requires |fs| > 0 && le(f.key, fs[0].key)
    ensures TotalPreorder(le) && SortedByKey(le, fs) ==> SortedByKey(le, [f] + fs)
  {
    if TotalPreorder(le) && SortedByKey(le, fs) {
      forall y | y in fs
        ensures le(f.key, y.key)
      {
        FirstIsLeast(le, fs, y);
      }
      ConsSorted(le, f, fs);
    }
  }

  lemma AfterHeadSorted(le: KeyOrder, f: Field, fs: seq<Field>, rest: seq<Field>)
    requires |fs| > 0 && !le(f.key, fs[0].key)
    requires multiset(rest) == multiset(fs[1..]) + multiset{f}
    requires TotalPreorder(le) && SortedByKey(le, fs[1..]) ==> SortedByKey(le, rest)
    ensures TotalPreorder(le) && SortedByKey(le, fs) ==> SortedByKey(le, [fs[0]] + rest)
  {
    if TotalPreorder(le) && SortedByKey(le, fs) {
      assert SortedByKey(le, fs[1..]);
      forall y | y in rest
        ensures le(fs[0].key, y.key)
      {
        assert y in multiset(rest);
        if y != f {
          assert y in fs[1..];
          FirstIsLeast(le, fs, y);
        }
      }
      ConsSorted(le, fs[0], rest);
    }
  }

  /** Insertion sort: the stable sort of `fs` by key. */
  function SortByKey(le: KeyOrder, fs: seq<Field>): (r: seq<Field>)
    ensures multiset(r) == multiset(fs)
    ensures TotalPreorder(le) ==> SortedByKey(le, r)
  {
    if |fs| == 0 then []
    else
      assert fs == [fs[0]] + fs[1..];
      Insert(le, fs[0], SortByKey(le, fs[1..]))
  }

  /** A dictionary's entries, when its keys never tie, form a ranked bag. */
  lemma {:induction false} DistinctKeysRanked(le: KeyOrder, fs: seq<Field>)
    requires DistinctKeys(fs)
    requires NoTies(le, fs)
    ensures Ranked(le, multiset(fs))
  {
    forall f
      ensures multiset(fs)[f] <= 1
    {
      OccursOnce(fs, f);
    }
  }

  lemma {:induction false} OccursOnce(fs: seq<Field>, f: Field)
    requires DistinctKeys(fs)
    ensures multiset(fs)[f] <= 1
  {
    if |fs| > 0 {
      assert fs == [fs[0]] + fs[1..];
      assert Keys(fs) == [fs[0].key] + Keys(fs[1..]);
      assert DistinctKeys(fs[1..]);
      OccursOnce(fs[1..], f);
      if fs[0] == f {
        forall i | 0 <= i < |fs[1..]|
          ensures fs[1..][i] != f
        {
          assert Keys(fs)[0] != Keys(fs)[i + 1];
        }
        assert multiset(fs[1..])[f] == 0;
      }
    }
  }

  /** Sorting is canonical on a ranked bag: two sorted arrangements of the
      same ranked entries are the same sequence. */
  lemma {:induction false} SortedUnique(le: KeyOrder, a: seq<Field>, b: seq<Field>)
    requires TotalPreorder(le)
    requires SortedByKey(le, a) && SortedByKey(le, b)
    requires multiset(a) == multiset(b)
    requires Ranked(le, multiset(a))
    ensures a == b
  {
    if |a| == 0 {
      assert |b| == 0;
    } else {
      assert |b| != 0;
      SameHead(le, a, b);
      SameHead(le, b, a);
      assert a[0] == b[0];
      TailsAgree(le, a, b);
      SortedUnique(le, a[1..], b[1..]);
      assert a == [a[0]] + a[1..];
      assert b == [b[0]] + b[1..];
    }
  }

  /** The head of a sorted ranked sequence ranks no later than any entry. */
  lemma SameHead(le: KeyOrder, a: seq<Field>, b: seq<Field>)
    requires TotalPreorder(le)
    requires SortedByKey(le, a)
    requires |a| > 0 && |b| > 0
    requires multiset(a) == multiset(b)
    ensures le(a[0].key, b[0].key)
  {
    assert b[0] in multiset(a);
    FirstIsLeast(le, a, b[0]);
  }

  lemma TailsAgree(le: KeyOrder, a: seq<Field>, b: seq<Field>)
    requires TotalPreorder(le)
    requires SortedByKey(le, a) && SortedByKey(le, b)
    requires |a| > 0 && |b| > 0 && a[0] == b[0]
    requires multiset(a) == multiset(b)
    requires Ranked(le, multiset(a))
    ensures SortedByKey(le, a[1..]) && SortedByKey(le, b[1..])
    ensures multiset(a[1..]) == multiset(b[1..])
    ensures Ranked(le, multiset(a[1..]))
  {
    assert a == [a[0]] + a[1..];
    assert b == [b[0]] + b[1..];
    assert multiset(a[1..]) <= multiset(a);
  }

  lemma FirstIsLeast(le: KeyOrder, a: seq<Field>, x: Field)
    requires TotalPreorder(le)
    requires SortedByKey(le, a)
    requires x in a
    ensures le(a[0].key, x.key)
  {
    var i :| 0 <= i < |a| && a[i] == x;
    if i == 0 {
      assert le(x.key, x.key) || le(x.key, x.key);
    }
  }

  /** The sort result depends only on which entries are sorted, not on their
      input order, when no two of them share a key or tie under `le`: any
      reordering of the input sorts to the same sequence. */
  lemma {:induction false} SortPermutationInvariant(le: KeyOrder, a: seq<Field>, b: seq<Field>)
    requires TotalPreorder(le)
    requires Rearranges(a, b)
    requires DistinctKeys(a) && NoTies(le, a)
    ensures SortByKey(le, a) == SortByKey(le, b)
  {
    DistinctKeysRanked(le, a);
    assert multiset(a) == multiset(b);
    RankedSortsAlike(le, a, b);
  }

  /** The same for any ranked bag of entries. */
  lemma {:induction false} RankedSortsAlike(le: KeyOrder, a: seq<Field>, b: seq<Field>)
    requires TotalPreorder(le)
    requires multiset(a) == multiset(b)
    requires Ranked(le, multiset(a))
    ensures SortByKey(le, a) == SortByKey(le, b)
  {
    SortedUnique(le, SortByKey(le, a), SortByKey(le, b));
  }

  /** Ordinal comparison (`string.CompareOrdinal`): lexicographic on
      character codes, a prefix first. One comparer the sort may be given. */
  predicate OrdinalLe(a: string, b: string)
    decreases |a|
  {
    if |a| == 0 then true
    else if |b| == 0 then false
    else if a[0] != b[0] then a[0] < b[0]
    else OrdinalLe(a[1..], b[1..])
  }

  lemma {:induction false} OrdinalTotal(a: string, b: string)
    ensures OrdinalLe(a, b) || OrdinalLe(b, a)
    decreases |a|
  {
    if |a| > 0 && |b| > 0 && a[0] == b[0] {
      OrdinalTotal(a[1..], b[1..]);
    }
  }

  lemma {:induction false} OrdinalTransitive(a: string, b: string, c: string)
    requires OrdinalLe(a, b) && OrdinalLe(b, c)
    ensures OrdinalLe(a, c)
    decreases |a|
  {
    if |a| > 0 && |b| > 0 && |c| > 0 && a[0] == b[0] && b[0] == c[0] {
      OrdinalTransitive(a[1..], b[1..], c[1..]);
    }
  }

  lemma {:induction false} OrdinalAntisymmetric(a: string, b: string)
    requires OrdinalLe(a, b) && OrdinalLe(b, a)
    ensures a == b
    decreases |a|
  {
    if |a| > 0 {
      OrdinalAntisymmetric(a[1..], b[1..]);
      assert a == [a[0]] + a[1..];
      assert b == [b[0]] + b[1..];
    }
  }

  /** Ordinal order satisfies the laws the sort relies on. */
  lemma {:induction false} OrdinalIsTotalPreorder()
    ensures TotalPreorder(OrdinalLe)
  {
    forall a, b
      ensures OrdinalLe(a, b) || OrdinalLe(b, a)
    {
      OrdinalTotal(a, b);
    }
    forall a, b, c | OrdinalLe(a, b) && OrdinalLe(b, c)
      ensures OrdinalLe(a, c)
    {
      OrdinalTransitive(a, b, c);
    }
  }

  /** Ordinal order never ties two different keys, so any field set meets
      `NoTies` under it. */
  lemma {:induction false} OrdinalNoTies(fs: seq<Field>)
    ensures NoTies(OrdinalLe, fs)
  {
    forall x, y | x in fs && y in fs && x.key != y.key
      ensures !Tied(OrdinalLe, x.key, y.key)
    {
      if Tied(OrdinalLe, x.key, y.key) {
        OrdinalAntisymmetric(x.key, y.key);
      }
    }
  }
}

=== FILE: survey.dfy ===
/** The request-shaping logic of the two AI endpoints that runs before any
    network call: reading the language and the numbered answers m1..m8 out
    of the JSON body, and the insights endpoint's early reply when the
    open-ended answers are empty. */
module Survey {
  import opened Wrappers

  /** A JSON body bound to `Dictionary<string, string>`: `None` when the body
      is null; an entry's value is `None` when the JSON holds `null`. */
  type Body = Option<map<string, Option<string>>>

  /** `body?.GetValueOrDefault(key)`: null for a null body, a missing key or
      a null value. */
  function Get(body: Body, key: string): Option<string> {
    match body
    case None => None
    case Some(m) => if key in m then m[key] else None
  }

  /** `lang`, defaulting to Traditional Chinese. */
  function Language(body: Body): (r: string)
    ensures body.Some? && "lang" in body.value && body.value["lang"].Some?
      ==> r == body.value["lang"].value
    ensures body.None? || "lang" !in body.value || body.value["lang"].None?
      ==> r == "zh-TW"
  {
    Get(body, "lang").GetOr("zh-TW")
  }

  predicate IsEnglish(body: Body) {
    Language(body) == "en-US"
  }

  function LowerKey(n: nat): string
    requires 1 <= n <= 8
  {
    ['m', ('0' as int + n) as char]
  }

  function UpperKey(n: nat): string
    requires 1 <= n <= 8
  {
    ['M', ('0' as int + n) as char]
  }

  /** Scores m1..m5 default to "0", open answers m6..m8 to "". */
  function Default(n: nat): string {
    if n <= 5 then "0" else ""
  }

  /** `body?.GetValueOrDefault("mN") ?? body?.GetValueOrDefault("MN") ?? default`:
      the lower-case key is preferred; the upper-case key is read only when
      the lower-case one is missing or null; otherwise the default. */
  function Answer(body: Body, n: nat): (r: string)
    requires 1 <= n <= 8
    ensures body.Some? && LowerKey(n) in body.value && body.value[LowerKey(n)].Some?
      ==> r == body.value[LowerKey(n)].value
    ensures body.Some? && (LowerKey(n) !in body.value || body.value[LowerKey(n)].None?)
      && UpperKey(n) in body.value && body.value[UpperKey(n)].Some?
      ==> r == body.value[UpperKey(n)].value
    ensures body.Some? && (LowerKey(n) !in body.value || body.value[LowerKey(n)].None?)
      && (UpperKey(n) !in body.value || body.value[UpperKey(n)].None?)
      ==> r == Default(n)
    ensures body.None? ==> r == Default(n)
  {
    Get(body, LowerKey(n)).OrElse(Get(body, UpperKey(n))).GetOr(Default(n))
  }

  /** The five scores m1..m5 both endpoints read. */
  function Scores(body: Body): (r: seq<string>)
    ensures |r| == 5
  {
    [Answer(body, 1), Answer(body, 2), Answer(body, 3), Answer(body, 4), Answer(body, 5)]
  }

  /** The three open answers m6..m8. */
  function OpenAnswers(body: Body): (r: seq<string>)
    ensures |r| == 3
  {
    [Answer(body, 6), Answer(body, 7), Answer(body, 8)]
  }

  /** An answer depends on nothing but the two spellings of its own key. */
  lemma AnswerReadsOnlyItsKeys(a: Body, b: Body, n: nat)
    requires 1 <= n <= 8
    requires Get(a, LowerKey(n)) == Get(b, LowerKey(n))
    requires Get(a, UpperKey(n)) == Get(b, UpperKey(n))
    ensures Answer(a, n) == Answer(b, n)
  {
  }

  /** A body that did not bind reads as Traditional Chinese with every score
      "0" and every open answer empty. */
  lemma NullBodyDefaults()
    ensures Language(None) == "zh-TW" && !IsEnglish(None)
    ensures Scores(None) == ["0", "0", "0", "0", "0"]
    ensures OpenAnswers(None) == ["", "", ""]
  {
  }

  /** `char.IsWhiteSpace`: the Unicode space, line and paragraph separators,
      and the control characters U+0009..U+000D and U+0085. */
  predicate IsWhiteSpace(c: char) {
    var u := c as int;
    || 0x09 <= u <= 0x0D || u == 0x20 || u == 0x85 || u == 0xA0 || u == 0x1680
    || 0x2000 <= u <= 0x200A || u == 0x2028 || u == 0x2029 || u == 0x202F
    || u == 0x205F || u == 0x3000
  }

  /** `string.IsNullOrWhiteSpace` on a string that is never null here. */
  predicate IsBlank(s: string) {
    forall i :: 0 <= i < |s| ==> IsWhiteSpace(s[i])
  }

  /** On ASCII, white space is exactly the tab, line feed, vertical tab,
      form feed, carriage return and space. Beyond ASCII the no-break space
      counts, while the zero-width space and the byte-order mark, which are
      format characters rather than separators, do not. */
  lemma WhiteSpaceFacts()
    ensures forall c: char :: c as int < 128 ==> (IsWhiteSpace(c) <==> c == ' ' || '\t' <= c <= '\r')
    ensures IsWhiteSpace(0xA0 as char) && IsWhiteSpace(0x3000 as char)
    ensures !IsWhiteSpace(0x200B as char) && !IsWhiteSpace(0xFEFF as char)
  {
  }

  /** The empty string is blank, and a concatenation is blank exactly when
      both parts are. */
  lemma BlankFacts(s: string, t: string)
    ensures IsBlank("")
    ensures IsBlank(s + t) <==> IsBlank(s) && IsBlank(t)
  {
    if IsBlank(s) && IsBlank(t) {
      forall i | 0 <= i < |s + t|
        ensures IsWhiteSpace((s + t)[i])
      {
        if i >= |s| {
          assert (s + t)[i] == t[i - |s|];
        }
      }
    }
    if IsBlank(s + t) {
      forall i | 0 <= i < |s|
        ensures IsWhiteSpace(s[i])
      {
        assert (s + t)[i] == s[i];
      }
      forall i | 0 <= i < |t|
        ensures IsWhiteSpace(t[i])
      {
        assert (s + t)[|s| + i] == t[i];
      }
    }
  }

  function NoDataMessage(english: bool): string {
    if english then "No open-ended question data provided" else "未提供開放式問題數據"
  }

  /** What the insights endpoint does before touching the session or the
      network: answer at once, or go on to generate from these inputs. */
  datatype InsightsStep =
    | Reply(insights: string)
    | Generate(english: bool, scores: seq<string>, answers: seq<string>)

  /** With all three open answers blank the endpoint replies with the fixed
      message in the requested language and generates nothing; otherwise it
      generates from the scores and answers it read. */
  function PlanInsights(body: Body): (r: InsightsStep)
    ensures r.Reply? <==> IsBlank(Answer(body, 6)) && IsBlank(Answer(body, 7)) && IsBlank(Answer(body, 8))
    ensures r.Reply? ==> r.insights == NoDataMessage(IsEnglish(body))
    ensures r.Generate? ==> r.english == IsEnglish(body) && r.scores == Scores(body) && r.answers == OpenAnswers(body)
  {
    var english := IsEnglish(body);
    var answers := OpenAnswers(body);
    if IsBlank(answers[0]) && IsBlank(answers[1]) && IsBlank(answers[2]) then Reply(NoDataMessage(english))
    else Generate(english, Scores(body), answers)
  }

  /** Any non-white-space character in m6, m7 or m8, under either spelling
      of the key, is enough to go on to generation. */
  lemma SomeTextGenerates(body: Body, n: nat, j: nat)
    requires 6 <= n <= 8
    requires j < |Answer(body, n)| && !IsWhiteSpace(Answer(body, n)[j])
    ensures PlanInsights(body).Generate?
  {
  }

  /** A null body gets the Chinese no-data reply. */
  lemma NullBodyRepliesNoData()
    ensures PlanInsights(None) == Reply("未提供開放式問題數據")
  {
    NullBodyDefaults();
  }
}

=== FILE: text.dfy ===
/** The string operations the signer applies: `string.Join`, the inverse
    reading `string.Split` that a receiver would use, character removal
    (`Replace(c, "")`) and the case mappings `ToLower` / `ToUpper`. */
module Text {

  /** `string.Join(sep, xs)`: the empty string for no pieces. */
  function Join(sep: string, xs: seq<string>): string {
    if |xs| == 0 then ""
    else if |xs| == 1 then xs[0]
    else xs[0] + sep + Join(sep, xs[1..])
  }

  /** `s.Split(c)`: the pieces between occurrences of `c`, always at least
      one (the empty string splits into one empty piece). */
  function Split(s: string, c: char): (r: seq<string>)
    ensures |r| >= 1
    ensures |r| == 1 <==> c !in s
  {
    if |s| == 0 then [""]
    else
      var rest := Split(s[1..], c);
      if s[0] == c then [""] + rest
      else [[s[0]] + rest[0]] + rest[1..]
  }

  /** Splitting at one separator occurrence splits the two sides apart. */
  lemma {:induction false} SplitConcat(s: string, c: char, t: string)
    ensures Split(s + [c] + t, c) == Split(s, c) + Split(t, c)
    decreases |s|
  {
    if |s| == 0 {
      assert s + [c] + t == [c] + t;
      assert ([c] + t)[1..] == t;
    } else {
      assert (s + [c] + t)[1..] == s[1..] + [c] + t;
      SplitConcat(s[1..], c, t);
    }
  }

  /** `Split` undoes `Join` when no piece contains the separator and there is
      at least one piece. */
  lemma {:induction false} SplitJoin(xs: seq<string>, c: char)
    requires |xs| >= 1
    requires forall i :: 0 <= i < |xs| ==> c !in xs[i]
    ensures Split(Join([c], xs), c) == xs
  {
    if |xs| == 1 {
      assert Split(xs[0], c) == [xs[0]] by { SplitOfNone(xs[0], c); }
    } else {
      SplitJoin(xs[1..], c);
      SplitConcat(xs[0], c, Join([c], xs[1..]));
      SplitOfNone(xs[0], c);
      assert xs == [xs[0]] + xs[1..];
    }
  }

  /** A joined list framed by two further pieces splits back into the frame
      and the list; an empty list leaves one empty piece in between. */
  lemma {:induction false} FramedSplit(head: string, xs: seq<string>, tail: string, c: char)
    requires c !in head && c !in tail
    requires forall i :: 0 <= i < |xs| ==> c !in xs[i]
    ensures Split(head + [c] + Join([c], xs) + [c] + tail, c)
      == [head] + (if |xs| == 0 then [""] else xs) + [tail]
  {
    var body := Join([c], xs);
    FramedPieces(head, body, tail, c);
    if |xs| > 0 {
      SplitJoin(xs, c);
    } else {
      assert body == "";
    }
  }

  lemma FramedPieces(head: string, body: string, tail: string, c: char)
    requires c !in head && c !in tail
    ensures Split(head + [c] + body + [c] + tail, c) == [head] + Split(body, c) + [tail]
  {
    var rest := body + [c] + tail;
    assert head + [c] + body + [c] + tail == head + [c] + rest;
    LeadingPiece(head, rest, c);
    TrailingPiece(body, tail, c);
    AppendAssoc([head], Split(body, c), [tail]);
  }

  lemma AppendAssoc(a: seq<string>, b: seq<string>, c: seq<string>)
    ensures a + (b + c) == a + b + c
  {
  }

  lemma LeadingPiece(head: string, rest: string, c: char)
    requires c !in head
    ensures Split(head + [c] + rest, c) == [head] + Split(rest, c)
  {
    SplitConcat(head, c, rest);
    SplitOfNone(head, c);
  }

  lemma TrailingPiece(body: string, tail: string, c: char)
    requires c !in tail
    ensures Split(body + [c] + tail, c) == Split(body, c) + [tail]
  {
    SplitConcat(body, c, tail);
    SplitOfNone(tail, c);
  }

  lemma {:induction false} SplitOfNone(s: string, c: char)
    requires c !in s
    ensures Split(s, c) == [s]
  {
    if |s| > 0 {
      SplitOfNone(s[1..], c);
      assert s == [s[0]] + s[1..];
    }
  }

  /** `s.Replace(c.ToString(), "")`: every occurrence of `c` removed. */
  function RemoveChar(s: string, c: char): (r: string)
    ensures c !in r
    ensures |r| <= |s|
  {
    if |s| == 0 then ""
    else if s[0] == c then RemoveChar(s[1..], c)
    else [s[0]] + RemoveChar(s[1..], c)
  }

  predicate IsAsciiUpper(c: char) {
    'A' <= c <= 'Z'
  }

  predicate IsAsciiLower(c: char) {
    'a' <= c <= 'z'
  }

  /** Both request cultures, zh-TW and en-US, map A-Z to a-z and leave the
      other ASCII characters alone; beyond ASCII the current culture's
      mapping `other` applies. */
  function LowerChar(other: char -> char, c: char): char {
    if IsAsciiUpper(c) then (c as int + 32) as char
    else if c as int < 128 then c
    else other(c)
  }

  /** What any culture's lower-casing guarantees beyond ASCII: it produces no
      ASCII capital and is settled after one application. */
  ghost predicate LowersCleanly(other: char -> char) {
    forall c :: c as int >= 128 ==> !IsAsciiUpper(other(c)) && LowerChar(other, other(c)) == other(c)
  }

  /** `s.ToLower()` under the current culture. */
  function ToLower(other: char -> char, s: string): (r: string)
    ensures |r| == |s|
    ensures forall i :: 0 <= i < |s| && IsAsciiUpper(s[i]) ==>
      IsAsciiLower(r[i]) && r[i] as int - s[i] as int == 'a' as int - 'A' as int
    ensures forall i :: 0 <= i < |s| && s[i] as int < 128 && !IsAsciiUpper(s[i]) ==> r[i] == s[i]
    ensures LowersCleanly(other) ==> forall i :: 0 <= i < |s| ==> !IsAsciiUpper(r[i])
  {
    seq(|s|, i requires 0 <= i < |s| => LowerChar(other, s[i]))
  }

  /** A lower-cased string holds no ASCII capital, and lower-casing it again
      changes nothing. */
  lemma ToLowerSettles(other: char -> char, s: string)
    requires LowersCleanly(other)
    ensures forall i :: 0 <= i < |s| ==> !IsAsciiUpper(ToLower(other, s)[i])
    ensures ToLower(other, ToLower(other, s)) == ToLower(other, s)
  {
    var r := ToLower(other, s);
    forall i | 0 <= i < |s|
      ensures !IsAsciiUpper(r[i]) && LowerChar(other, r[i]) == r[i]
    {
      var c := s[i];
      if !IsAsciiUpper(c) && c as int >= 128 {
        assert r[i] == other(c);
      }
    }
  }

  /** Upper-casing restricted to ASCII: a-z to A-Z, everything else kept. */
  function ToUpperAscii(s: string): (r: string)
    ensures |r| == |s|
    ensures forall i :: 0 <= i < |s| ==> !IsAsciiLower(r[i])
    ensures (forall i :: 0 <= i < |s| ==> !IsAsciiLower(s[i])) ==> r == s
  {
    seq(|s|, i requires 0 <= i < |s| => if IsAsciiLower(s[i]) then (s[i] as int - 32) as char else s[i])
  }

  /** The decimal digits of `n`, most significant first, as string
      interpolation renders an `int`. */
  function Decimal(n: nat): (r: string)
    ensures |r| >= 1
    ensures forall i :: 0 <= i < |r| ==> '0' <= r[i] <= '9'
  {
    var d := ['0' + (n % 10) as char];
    if n < 10 then d else Decimal(n / 10) + d
  }
}

=== FILE: wrappers.dfy ===
/** Option type standing for .NET `null`: a missing dictionary entry,
    a JSON `null` value, a request body that did not bind. */
module Wrappers {

  datatype Option<+T> = None | Some(value: T) {

    /** The C# `x ?? fallback` operator. */
    function GetOr(fallback: T): T {
      match this
      case Some(v) => v
      case None => fallback
    }

    /** The C# `x ?? y` operator on two nullable values. */
    function OrElse(other: Option<T>): Option<T> {
      match this
      case Some(_) => this
      case None => other
    }
  }
}
